=== FILE: README.md ===
# git-clone-cache, modelled in Dafny

git-clone-cache keeps a local cache of bare git mirrors, one per canonical
origin URL. The mirror for a URL lives at `<cache_dir>/<sha256(url)>`. The
index `directory.json` maps each URL to its mirror's directory name. There
are two programs:

- The **populator** (`populate_git_clone_cache.py`) takes working-copy paths
  or URLs. It resolves each one to an origin URL. It is meant to clone a new
  mirror or fetch into the existing one, reset the mirror's `origin`, and
  record the URL in the index. As written, every git command it starts
  fails, so it only rewrites the index for mirrors that already exist (see
  "Findings"). The model describes the intended behaviour, with each git
  command's success as an input. `Populator.TeeWired` gives the wiring as
  written.
- The **discoverer** (`find_and_populate_git_clone_cache.py`) walks a
  directory tree top-down. It skips `.git`, `node_modules` and symlinked
  directories, collects every directory that has a `.git` subdirectory, and
  starts one populator process per repository it found.

The model is functional. Git appears as the trace of abstract commands the
populator issues (`GetOriginUrl`, `Fetch`, `SetOriginUrl`, `CloneMirror`).
Each command's success comes from an oracle indexed by the argument's
position. These are all parameters:

- the filesystem queries on arguments (exists, is a directory, has `.git`);
- the SHA-256 digest (`hash`);
- `git remote get-url origin`;
- the success of index writes;
- the discoverer's child processes.

The index file is `Absent`, `Unreadable` or `Present(map)`. The
discoverer's filesystem is a finite tree of directory entries. Each entry
has a name, a symlink flag, a flag saying whether listing it succeeds, and
its subdirectories in listing order.

Files:
- `option.dfy`: the `Option` type.
- `index.dfy`: module `DirectoryIndex`, which is `update_directory_json`.
- `populate.dfy`: module `Populator`. It holds `find_real_git`, argument
  classification, origin resolution, `populate_cache`, the argument loop and
  the fatal checks of `main`.
- `walk.dfy`: module `DirectoryWalk`, the `os.walk` pruning and collection
  loop, with an independent description of what it reports.
- `discover.dfy`: module `Discoverer`, with the discoverer's `main`, its
  exit conditions and the dispatch loop.

Some behaviours of the code are easy to misread; the model follows the
code:

- The usage text advertises `https://url` arguments. But every argument
  that is not an existing path is rejected first. So the URL branch is only
  taken for an existing path that is not a directory, and its text is then
  used as both URL and clone source.
- A failed clone does not update the index and does not reset the origin.
  Only a failed fetch still does both.
- Inside `populate_cache`, a git command that cannot be started is not
  fatal: `run_git_command` catches every exception and reports failure. The
  origin lookup is different. `get_origin_url` catches only
  `CalledProcessError` and `FileNotFoundError`. Any other `OSError` from
  starting git, or a `UnicodeDecodeError` on its text output, escapes `main`.
  The process then exits with status 1 and the later arguments are never
  processed. The model does not cover that crash (see "Left out").
- A second `'.git' in dirs` test follows the filter in the walk. It can
  never succeed, because the filter has just removed `.git`. So no directory
  is reported twice. `DirectoryWalk.Visit` keeps the test as written, and its
  contract proves that the test adds nothing.

## Model

| member | source | states |
|---|---|---|
| `Populator.FindRealGit` | git-clone-cache/populate_git_clone_cache.py:39-53 | The git on PATH is chosen exactly when it is non-empty and does not resolve to the wrapper's resolved path; the choice is always the PATH result itself |
| `Populator.Classify` | git-clone-cache/populate_git_clone_cache.py:241-256 | Argument kinds partition as in the loop: missing path; directory with a `.git` entry (local); directory without one; existing non-directory (the URL branch) |
| `Populator.Resolve` | git-clone-cache/populate_git_clone_cache.py:241-259 | Missing path, plain directory and working copy without (or with empty) origin are skipped with their reason; a working copy yields its origin URL and clones from its own path; any other existing path is used verbatim as URL and source |
| `Populator.PopulateCache` | git-clone-cache/populate_git_clone_cache.py:148-180 | Existing mirror: trace is fetch then set-url, result is the fetch's, index updated whatever the fetch did. Absent mirror: trace starts with `clone --mirror source mirror`; success adds set-url and the index update and returns true; failure issues nothing more, leaves the index alone and returns false |
| `Populator.SetOriginUrlResultIgnored` | git-clone-cache/populate_git_clone_cache.py:139-180 | Two git oracles that differ only on `remote set-url` give the same populate result, trace and index |
| `Populator.CreateThenUpdate` | git-clone-cache/populate_git_clone_cache.py:151-176 | After a successful clone, populating the same URL again fetches (no re-clone); when the first index write succeeded the second run keeps the index unchanged and it still records url -> mirror name |
| `Populator.ProcessArg` | git-clone-cache/populate_git_clone_cache.py:237-265 | Each argument's outcome is its own resolution; skipped arguments change nothing and issue no git command except the origin lookup; a cached URL's mirror is `<cache_dir>/<hash(url)>`, the trace ends in set-url unless the clone failed; mirrors only grow by that key, a true result leaves the mirror present, and a present mirror with a successful write leaves the index recording url -> hash(url) |
| `Populator.ProcessArgs` | git-clone-cache/populate_git_clone_cache.py:237-265 | Every argument gets exactly one outcome, in order, fixed by its own resolution whatever earlier arguments did; mirrors present at the start are still present at the end; if all are skipped the store is unchanged |
| `Populator.ArgumentSeesEarlierStore` | git-clone-cache/populate_git_clone_cache.py:237-265 | The arguments run one after another against shared state: argument `j`'s outcome is the one it gets at its position against the mirrors and index the first `j` arguments left (`StoreBefore`, defined step by step apart from the loop) |
| `Populator.StoreBeforeGrows` | git-clone-cache/populate_git_clone_cache.py:151-176 | Mirrors are never removed: the mirrors before any later argument include those at the start |
| `Populator.MirrorKeptUntil` | git-clone-cache/populate_git_clone_cache.py:151-176 | Once an argument's populate has returned true, its mirror `<cache>/<hash(url)>` is present when every later argument is reached |
| `Populator.TraceSplit` | git-clone-cache/populate_git_clone_cache.py:237-265 | The commands of the whole loop are those of the first `k` arguments (`TraceBefore`, defined step by step apart from the loop) followed by those of the loop over the remaining arguments, started from the store the first `k` left |
| `Populator.ArgumentTraceAt` | git-clone-cache/populate_git_clone_cache.py:237-265 | The commands of the whole loop are the earlier arguments' commands, then argument `k`'s own commands issued against the store the earlier arguments left, then the later arguments' commands |
| `Populator.MirrorPresentFetched` | git-clone-cache/populate_git_clone_cache.py:151-165 | An argument whose mirror is present when the loop reaches it issues exactly its origin lookup (working copies only), a fetch into that mirror and the origin reset, and no clone; these are its commands in their place in the loop's commands |
| `Populator.LaterArgumentFetches` | git-clone-cache/populate_git_clone_cache.py:151-265 | After an argument's populate returned true, a later argument resolving to the same URL issues exactly its origin lookup, a fetch into the mirror that populate left and the origin reset, in its place in the loop's commands: it never clones that mirror again |
| `Populator.RecordsPersist` | git-clone-cache/populate_git_clone_cache.py:118-136 | An index entry url -> hash(url) survives every later argument: updates for other URLs keep it, an update for the same URL rewrites the same key, and a failed write leaves the file alone |
| `Populator.IndexRecordsPopulated` | git-clone-cache/populate_git_clone_cache.py:151-176 | At the end of the loop the index records url -> hash(url) for every argument whose populate returned true and whose index write went through |
| `Populator.RunPopulator` | git-clone-cache/populate_git_clone_cache.py:206-265 | Git is missing exactly when the PATH lookup found nothing or an empty path, found the wrapper itself, or found a non-executable file; that aborts first, then a cache root that cannot be set up, then an empty argument list; otherwise the argument loop runs from position 0 on the initial store, every argument is processed and no mirror is lost |
| `Populator.IsLocalRepo` | git-clone-cache/populate_git_clone_cache.py:82-88 | Definition: a directory that has a `.git` entry; its use is stated by `Classify` |
| `Populator.MirrorFor` | git-clone-cache/populate_git_clone_cache.py:261-262 | Definition: the mirror of a URL is `<cache_dir>/<hash(url)>`; `ProcessArg` and `ArgTouchesMirror` state where it is used |
| `Populator.ExitCode` | git-clone-cache/populate_git_clone_cache.py:206-270 | Definition: 1 for a fatal condition, else 0; `ExitCodeIgnoresArgumentFailures` states what that means for a run |
| `Populator.ExitCodeIgnoresArgumentFailures` | git-clone-cache/populate_git_clone_cache.py:206-270 | Exit status is 0 exactly when no fatal condition holds, however the arguments fared |
| `Populator.UrlArgumentNeedsExistingPath` | git-clone-cache/populate_git_clone_cache.py:227-243 | Any argument, URL or not, that is not an existing path is reported missing: no git command, state unchanged |
| `Populator.MissingOriginSkipped` | git-clone-cache/populate_git_clone_cache.py:245-250 | A working copy without origin, or with an empty one, is skipped after the lookup, and the arguments after it are processed as if it were absent |
| `Populator.FailedCloneSkipped` | git-clone-cache/populate_git_clone_cache.py:166-180 | A failed clone is followed by nothing for that argument: its trace is the lookup (for a working copy) and the clone, and the later arguments run from the unchanged mirrors and index |
| `Populator.ArgTouchesMirror` | git-clone-cache/populate_git_clone_cache.py:151-170 | For an argument that resolves to a URL, git fetches into `<cache>/<hash(url)>` when that mirror was present before the argument, and otherwise clones the argument's source into it |
| `Populator.EveryResolvedArgumentPopulated` | git-clone-cache/populate_git_clone_cache.py:237-265 | The value of populate_cache is dropped, so every argument that resolves to a URL gets a fetch into, or a clone into, `<cache>/<hash(url)>`, whatever failed before it |
| `Populator.SuccessfulMirrorKept` | git-clone-cache/populate_git_clone_cache.py:237-265 | The mirror of every argument whose populate returned true is among the mirrors when the loop ends |
| `Populator.FirstPopulateOfWorkingCopy` | git-clone-cache/populate_git_clone_cache.py:245-265 | First populate of a working copy with origin `url`: trace is get-url, `clone --mirror path <cache>/<hash(url)>`, set-url to `url`; the index becomes exactly `{url: hash(url)}` |
| `Populator.RepeatedArgumentFetches` | git-clone-cache/populate_git_clone_cache.py:148-165 | Populating the same argument again after a run that left a mirror and wrote the index ends with fetch then set-url and leaves mirrors and index unchanged |
| `Populator.TeeWired` | git-clone-cache/populate_git_clone_cache.py:91-115 | Definition: the inputs as main wires them, with every fetch, clone and origin reset failing |
| `Populator.TeeWiredStep` | git-clone-cache/populate_git_clone_cache.py:91-115 | As wired, one argument never adds a mirror and its populate never returns true |
| `Populator.NothingClonedAsWritten` | git-clone-cache/populate_git_clone_cache.py:91-115 | As wired, the loop ends with exactly the mirrors it started with, and no argument's populate returns true |
| `Populator.FirstPopulateFailsAsWritten` | git-clone-cache/populate_git_clone_cache.py:166-180 | As wired, the first populate of a working copy issues the lookup and a clone that fails, returns false, and leaves neither a mirror nor an index |
| `DirectoryIndex.UpdateIndex` | git-clone-cache/populate_git_clone_cache.py:118-136 | The mapping sends url to key and keeps every other loaded entry (missing or unreadable file loads as empty); a write is attempted iff the file did not already record url -> key; a failed write leaves the file, a successful one stores the mapping |
| `DirectoryIndex.UpdateIndexIdempotent` | git-clone-cache/populate_git_clone_cache.py:129-136 | Repeating a successful (or unneeded) update attempts no write and leaves the file unchanged |
| `DirectoryIndex.UpdateIndexFromNothing` | git-clone-cache/populate_git_clone_cache.py:121-133 | A missing or unreadable index is replaced by the single entry url -> key, dropping whatever it held |
| `DirectoryIndex.UpdateIndexKeepsOthers` | git-clone-cache/populate_git_clone_cache.py:125-130 | Updating a loadable index keeps every other URL's entry |
| `DirectoryWalk.Kept` | git-clone-cache/find_and_populate_git_clone_cache.py:88-92 | The filtered listing holds exactly the children that are not symlinks and not named `.git` or `node_modules`, so it contains no `.git` |
| `DirectoryWalk.WalkListOverKept` | git-clone-cache/find_and_populate_git_clone_cache.py:88-92 | The walk descends into exactly the filtered `dirs` list: walking a listing child by child gives the same output as walking `Kept` of it |
| `DirectoryWalk.WalkDir` | git-clone-cache/find_and_populate_git_clone_cache.py:83-96 | Definition of the walk from one directory; `WalkDirUnder`, `WalkDirExact` and `WalkDirOrdered` state what it reports |
| `DirectoryWalk.WalkList` | git-clone-cache/find_and_populate_git_clone_cache.py:83-96 | Definition of the walk over the children kept in `dirs`; `WalkListOverKept` and `WalkListUnder` state its properties |
| `DirectoryWalk.WalkDirUnder` | git-clone-cache/find_and_populate_git_clone_cache.py:83-96 | Every path the walk reports lies below the directory it starts from |
| `DirectoryWalk.Visit` | git-clone-cache/find_and_populate_git_clone_cache.py:84-96 | The two membership tests together append the directory once iff it has a `.git` child: the second test never fires |
| `DirectoryWalk.WalkDirExact` | git-clone-cache/find_and_populate_git_clone_cache.py:83-92 | A path below `at` is reported iff it names a listable directory with a `.git` child, reached through listable children that are neither symlinks nor `.git`/`node_modules` |
| `DirectoryWalk.WalkReportsExactly` | git-clone-cache/find_and_populate_git_clone_cache.py:83-92 | From the root, the walk reports exactly the reachable directories that have a `.git` child; the filters apply to children only, so the root itself is reported when it has `.git` |
| `DirectoryWalk.WalkAvoidsPrunedNames` | git-clone-cache/find_and_populate_git_clone_cache.py:88-92 | No reported path has a `.git` or `node_modules` component |
| `DirectoryWalk.WalkIgnoresPruned` | git-clone-cache/find_and_populate_git_clone_cache.py:83-92 | Emptying every `.git`, `node_modules` or symlinked directory leaves the walk's output unchanged: nothing inside them is ever reported |
| `DirectoryWalk.WalkDirOrdered` | git-clone-cache/find_and_populate_git_clone_cache.py:83-96 | With unique names per directory, no path is reported twice and a directory precedes every reported directory below it |
| `DirectoryWalk.WalkReportsOnceInPreOrder` | git-clone-cache/find_and_populate_git_clone_cache.py:82-96 | The list of repos collected from the root has no duplicates and is in top-down pre-order |
| `Discoverer.RunPopulate` | git-clone-cache/find_and_populate_git_clone_cache.py:45-61 | Status 0 is logged as success, any other status as a failure carrying that status, an exception as an error; the log entry names the repository |
| `Discoverer.Dispatch` | git-clone-cache/find_and_populate_git_clone_cache.py:104-105 | One populate run per repository, in discovery order, each entry decided by that repository's own run |
| `Discoverer.DiscoverMain` | git-clone-cache/find_and_populate_git_clone_cache.py:64-105 | No argument: usage error before anything else; non-directory root: error before walking; empty walk: "no repos" with no dispatch; otherwise every walked repo is dispatched |
| `Discoverer.ExitCode` | git-clone-cache/find_and_populate_git_clone_cache.py:64-109 | Definition: 0 for a run that dispatched, 1 otherwise; `ExitCodeIgnoresPopulateResults` states what that means for a run |
| `Discoverer.ExitCodeIgnoresPopulateResults` | git-clone-cache/find_and_populate_git_clone_cache.py:98-109 | The exit status is 1 exactly for the three fatal cases and does not depend on the populator runs |
| `Discoverer.NoReposIffNothingReported` | git-clone-cache/find_and_populate_git_clone_cache.py:98-100 | The run stops with "no repos" iff no directory under the root is reported |
| `Discoverer.DispatchedRepos` | git-clone-cache/find_and_populate_git_clone_cache.py:82-105 | The dispatched repositories are exactly the reported directories, each once, parents first |

## Left out

- Subprocess execution and output streaming are not modelled: `run_git_command`, `Popen`, and the child process started by `run_populate_git_clone_cache`. Each git command is an oracle result. Each child run is an exit status or an exception.
- `get_origin_url` is an oracle. It returns the stripped output of `git remote get-url origin`, or None. None stands for a non-zero exit status and for the two exceptions the function catches, `CalledProcessError` and `FileNotFoundError`.
- `Populator.ProcessArg`: does not model the crash of `get_origin_url` on an exception it does not catch, such as an `OSError` other than `FileNotFoundError` when starting git, or a `UnicodeDecodeError` on its output. The oracle can only answer a URL or None. So such an argument is modelled as skipped with `NoOrigin`, and `ProcessArgs` goes on with the later arguments, which the source never reaches.
- `Populator.ExitCodeIgnoresArgumentFailures`: the same crash exits with status 1 in the source. The model has no crash result, so it gives 0 whenever no fatal condition holds.
- `Populator.ProcessArg`: does not model a message the log file cannot encode. The log is opened as strict UTF-8 text, and a path that is not valid UTF-8 reaches Python as lone surrogates. The source then raises an uncaught `UnicodeEncodeError` when writing the argument into the log, in `error` for a skipped argument or in `run_git_command` before its `try`. The same happens in `compute_cache_key`, which encodes the URL strictly before hashing it. The model gives such an argument its ordinary outcome and goes on with the later arguments.
- `Populator.ExitCodeIgnoresArgumentFailures`: that encoding crash also exits with status 1 in the source, where the model gives 0.
- `Discoverer.DiscoverMain`: does not model a log write that cannot be encoded. A root or reported directory whose path is not valid UTF-8 makes the log write for the search message or for "Found git repo" raise `UnicodeEncodeError`. The walk then stops with status 1 before any populator is started, while the model dispatches every reported directory. The same error can end the dispatch loop early, from the log write in `run_populate_git_clone_cache` that comes before its `try`.
- `Discoverer.ExitCodeIgnoresPopulateResults`: that encoding crash is a fourth way to exit with status 1. The model has no crash result, so it states only the usage, not-a-directory and no-repos cases.
- SHA-256 is the parameter `hash`. Collision resistance is not modelled, so distinct URLs share a mirror exactly when `hash` maps them together.
- JSON text, sorted-key formatting, and the file open, read and write calls are not modelled. The index is `Absent`, `Unreadable` or `Present(map)`. A failed write is taken to leave the file as it was. A write that fails partway and leaves a truncated file is not modelled.
- A `directory.json` holding valid JSON that is not an object is not modelled. The source then raises an uncaught `AttributeError`.
- `Path.resolve`, `shutil.which`, `os.access`, `os.path.expanduser` and the `GIT_CLONE_CACHE_DIR` lookup are foreign path and environment calls. Their results are inputs: `FindRealGit`'s parameters, `Setup`, `Env.cacheDir`, and the discoverer's `dirAt`. The two programs pick the cache root slightly differently for an empty variable. That difference is not modelled.
- The populator's failure to create the cache root or open its log is one input, `cacheDirReady`. In the source it is an uncaught exception, which also exits with status 1. The discoverer's log-file opening is not modelled.
- The walk's filesystem has directory entries only. A `.git` that is a regular file, as in worktrees and submodules, is not in os.walk's `dirs`. So the walk does not find it. The tree cannot express that case. The populator's `hasGitEntry` query does cover it.
- os.walk's listing order is unspecified in the source. The model takes it as the order of `children`.
- Existence of a mirror changes only through the model's own clones. A failed clone is taken to leave no directory behind. Argument paths are assumed not to be affected by git commands.
- Console and log message text, and `VERBOSE` handling, are presentation only.
- Concurrency between invocations is not modelled. The source has no locking to verify.
- `DirectoryWalk.WalkDirOrdered`: needs unique entry names in each directory, as every real filesystem provides. Completeness (`WalkDirExact`) holds without that assumption.

## Findings

| source | as written | input that shows it | evidently intended | confidence | as-written member | corrected member |
|---|---|---|---|---|---|---|
| git-clone-cache/populate_git_clone_cache.py:96-103 | `run_git_command` passes `Tee` objects to `Popen` as stdout and stderr whenever a log file is given, and `main` always gives one. `Tee` has no `fileno`, so `Popen` raises `AttributeError`, which is caught and reported as a failed command | Any run on a working copy with an origin and no mirror: the clone fails, nothing is cached, and the run still exits 0 | Git's output is streamed to the console and the log, and the command's own exit status decides success | not executed | `Populator.NothingClonedAsWritten` | `Populator.FirstPopulateOfWorkingCopy` |

=== FILE: discover.dfy ===
/** The discoverer's main (find_and_populate_git_clone_cache.py): check the
    argument, walk the resolved root, and hand every repository found to a
    separate populator process. The child process is an oracle that either
    exits with a status or raises; console and log output are not modelled. */
module Discoverer {
  import opened Opt
  import opened DirectoryWalk

  /** What starting and waiting for the populator child process gave. */
  datatype ChildResult = ReturnCode(code: int) | Raised

  /** The log line written for one repository. */
  datatype DispatchLog =
    | Populated(repo: Path)
    | PopulateFailed(repo: Path, code: int)
    | PopulateRaised(repo: Path)

  /** run_populate_git_clone_cache: exit status 0 is a success, any other
      status a logged failure, and an exception is caught and logged. */
  function RunPopulate(repo: Path, run: Path -> ChildResult): (e: DispatchLog)
    ensures e.repo == repo
    ensures e.Populated? <==> run(repo) == ReturnCode(0)
    ensures e.PopulateFailed? <==> run(repo).ReturnCode? && run(repo).code != 0
    ensures e.PopulateFailed? ==> e.code == run(repo).code
  {
    match run(repo)
    case ReturnCode(code) => if code == 0 then Populated(repo) else PopulateFailed(repo, code)
    case Raised => PopulateRaised(repo)
  }

  /** The dispatch loop: one populator run per repository, in discovery
      order; nothing a run does stops the ones after it. */
  function Dispatch(repos: seq<Path>, run: Path -> ChildResult): (log: seq<DispatchLog>)
    ensures |log| == |repos|
    ensures forall i | 0 <= i < |repos| :: log[i] == RunPopulate(repos[i], run)
  {
    if repos == [] then [] else [RunPopulate(repos[0], run)] + Dispatch(repos[1..], run)
  }

  /** How main ends: a usage error, a root that is not a directory, no
      repository found, or every found repository dispatched. */
  datatype DiscoverRun =
    | Usage
    | NotADirectory(path: string)
    | NoRepos
    | Done(repos: seq<Path>, log: seq<DispatchLog>)

  /** main, on the arguments after the program name. `dirAt` resolves a path
      and gives the directory tree there, or None when it is not a directory;
      arguments after the first are ignored. */
  function DiscoverMain(args: seq<string>, dirAt: string -> Option<Dir>, run: Path -> ChildResult): (r: DiscoverRun)
    ensures r == Usage <==> args == []
    ensures r.NotADirectory? <==> args != [] && dirAt(args[0]).None?
    ensures r == NoRepos <==> args != [] && dirAt(args[0]).Some? && WalkDir(dirAt(args[0]).value, []) == []
    ensures r.Done? ==>
      && args != [] && dirAt(args[0]).Some?
      && r.repos == WalkDir(dirAt(args[0]).value, []) && r.repos != []
      && |r.log| == |r.repos|
      && forall i | 0 <= i < |r.repos| :: r.log[i] == RunPopulate(r.repos[i], run)
  {
    if args == [] then Usage
    else match dirAt(args[0])
      case None => NotADirectory(args[0])
      case Some(root) =>
        var repos := WalkDir(root, []);
        if repos == [] then NoRepos else Done(repos, Dispatch(repos, run))
  }

  /** The process exit status. */
  function ExitCode(r: DiscoverRun): int
  {
    if r.Done? then 0 else 1
  }

  /** The exit status never depends on how the populator runs went. */
  lemma ExitCodeIgnoresPopulateResults(args: seq<string>, dirAt: string -> Option<Dir>,
                                       run1: Path -> ChildResult, run2: Path -> ChildResult)
    ensures ExitCode(DiscoverMain(args, dirAt, run1)) == ExitCode(DiscoverMain(args, dirAt, run2))
    ensures ExitCode(DiscoverMain(args, dirAt, run1)) == 1 <==>
            args == [] || dirAt(args[0]).None? || WalkDir(dirAt(args[0]).value, []) == []
  {
  }

  /** The run stops with "no git repos found" exactly when no directory
      under the root is reported. */
  lemma NoReposIffNothingReported(args: seq<string>, dirAt: string -> Option<Dir>, run: Path -> ChildResult)
    requires args != [] && dirAt(args[0]).Some?
    ensures DiscoverMain(args, dirAt, run) == NoRepos <==> forall p :: !Reported(dirAt(args[0]).value, p)
  {
    var root := dirAt(args[0]).value;
    if WalkDir(root, []) == [] {
      forall p ensures !Reported(root, p) {
        WalkReportsExactly(root, p);
      }
    } else {
      WalkReportsExactly(root, WalkDir(root, [])[0]);
    }
  }

  /** What gets dispatched: exactly the reported directories, each once and
      parents before the repositories below them. */
  lemma DispatchedRepos(args: seq<string>, dirAt: string -> Option<Dir>, run: Path -> ChildResult)
    requires DiscoverMain(args, dirAt, run).Done?
    requires WellFormed(dirAt(args[0]).value)
    ensures var r := DiscoverMain(args, dirAt, run);
            && (forall p :: p in r.repos <==> Reported(dirAt(args[0]).value, p))
            && NoDuplicates(r.repos) && PreOrder(r.repos)
  {
    var root := dirAt(args[0]).value;
    forall p ensures p in WalkDir(root, []) <==> Reported(root, p) {
      WalkReportsExactly(root, p);
    }
    WalkReportsOnceInPreOrder(root);
  }
}

=== FILE: index.dfy ===
/** The directory index `directory.json` in the cache root: a map from a
    canonical origin URL to the name of its mirror directory, updated by a
    read-modify-write in update_directory_json
    (populate_git_clone_cache.py). JSON text, the file handle and the log
    messages are not modelled; the file is one of three states, and whether
    a write succeeds is an input. */
module DirectoryIndex {

  /** The index file as the loader finds it: not there, there but not
      loadable (unreadable or not valid JSON), or holding a string map. */
  datatype IndexFile = Absent | Unreadable | Present(entries: map<string, string>)

  /** The mapping the update starts from: the file's contents, or the empty
      map when the file is missing or its read failed. */
  function Load(f: IndexFile): map<string, string>
  {
    if f.Present? then f.entries else map[]
  }

  /** The index file maps `url` to `key`. */
  predicate Records(f: IndexFile, url: string, key: string)
  {
    f.Present? && url in f.entries && f.entries[url] == key
  }

  /** The outcome of one update: the in-memory mapping after the update,
      whether a write of the file was attempted, and the file afterwards. */
  datatype IndexUpdate = IndexUpdate(mapping: map<string, string>, attempted: bool, file: IndexFile)

  /** update_directory_json: load, set `url` to `key`, and rewrite the whole
      file only when the loaded value differs. `writeOk` says whether the
      rewrite succeeds; a failed rewrite is logged and leaves the file as it
      was. */
  function UpdateIndex(f: IndexFile, url: string, key: string, writeOk: bool): (u: IndexUpdate)
    ensures url in u.mapping && u.mapping[url] == key
    ensures u.mapping.Keys == Load(f).Keys + {url}
    ensures forall k | k in Load(f) && k != url :: u.mapping[k] == Load(f)[k]
    ensures u.attempted <==> !Records(f, url, key)
    ensures !u.attempted ==> u.file == f
    ensures u.attempted && writeOk ==> u.file == Present(u.mapping)
    ensures u.attempted && !writeOk ==> u.file == f
    ensures writeOk || Records(f, url, key) ==> Records(u.file, url, key)
  {
    var m := Load(f);
    if url in m && m[url] == key then
      IndexUpdate(m, false, f)
    else
      var m' := m[url := key];
      IndexUpdate(m', true, if writeOk then Present(m') else f)
  }

  /** No redundant writes: once an update has succeeded (or was not needed),
      repeating it with the same arguments writes nothing and leaves the file
      as it is, whatever the second write would have done. */
  lemma UpdateIndexIdempotent(f: IndexFile, url: string, key: string, writeOk1: bool, writeOk2: bool)
    requires writeOk1 || !UpdateIndex(f, url, key, writeOk1).attempted
    ensures var f1 := UpdateIndex(f, url, key, writeOk1).file;
            var u2 := UpdateIndex(f1, url, key, writeOk2);
            !u2.attempted && u2.file == f1
  {
  }

  /** A missing or unreadable index counts as empty, so the rewrite that
      follows replaces the file with a single entry and whatever the
      unreadable file held is lost. */
  lemma UpdateIndexFromNothing(f: IndexFile, url: string, key: string)
    requires f == Absent || f == Unreadable
    ensures UpdateIndex(f, url, key, true).attempted
    ensures UpdateIndex(f, url, key, true).file == Present(map[url := key])
  {
  }

  /** Updating a loadable index keeps every other entry it held. */
  lemma UpdateIndexKeepsOthers(entries: map<string, string>, url: string, key: string, writeOk: bool, other: string)
    requires other in entries && other != url
    ensures Records(UpdateIndex(Present(entries), url, key, writeOk).file, other, entries[other])
  {
  }
}

=== FILE: option.dfy ===
/** An optional value, for the source's `None` results. */
module Opt {
  datatype Option<+T> = None | Some(value: T)
}

=== FILE: populate.dfy ===
/** The populator (populate_git_clone_cache.py): choose the git binary, check
    the fatal conditions, classify each argument, resolve its canonical origin
    URL, and create or refresh the mirror `<cache_dir>/<sha256(url)>` before
    recording it in the directory index.

    Git is modelled as the trace of abstract commands the populator issues;
    each command's success is read from an oracle. The filesystem queries on
    arguments, the SHA-256 digest and `git remote get-url origin` are
    parameters too. */
module Populator {
  import opened Opt
  import opened DirectoryIndex

  /** find_real_git: the binary found on PATH (`which`), unless it is empty
      or resolves to the same file as the wrapper shipped next to the script. */
  function FindRealGit(which: Option<string>, resolve: string -> string, wrapper: string): (git: Option<string>)
    ensures git.Some? <==> which.Some? && which.value != "" && resolve(which.value) != resolve(wrapper)
    ensures git.Some? ==> git == which
  {
    match which
    case Some(path) => if path != "" && resolve(path) != resolve(wrapper) then which else None
    case None => None
  }

  /** The three filesystem queries made on an argument: does the path exist,
      is it a directory, does `<path>/.git` exist. */
  datatype FileSystem = FileSystem(pathExists: string -> bool, isDir: string -> bool, hasGitEntry: string -> bool)

  /** is_local_repo */
  predicate IsLocalRepo(fs: FileSystem, path: string)
  {
    fs.isDir(path) && fs.hasGitEntry(path)
  }

  /** The four ways the argument loop treats an argument. */
  datatype ArgKind = NoSuchPath | LocalRepo | PlainDir | OtherPath

  /** The order of tests in the argument loop: existence first, then working
      copy, then directory. Whatever is left is an existing path that is not a
      directory; a URL that does not name an existing file never gets here. */
  function Classify(fs: FileSystem, arg: string): (k: ArgKind)
    ensures k == NoSuchPath <==> !fs.pathExists(arg)
    ensures k == LocalRepo <==> fs.pathExists(arg) && IsLocalRepo(fs, arg)
    ensures k == PlainDir <==> fs.pathExists(arg) && fs.isDir(arg) && !fs.hasGitEntry(arg)
    ensures k == OtherPath <==> fs.pathExists(arg) && !fs.isDir(arg)
  {
    if !fs.pathExists(arg) then NoSuchPath
    else if IsLocalRepo(fs, arg) then LocalRepo
    else if fs.isDir(arg) then PlainDir
    else OtherPath
  }

  /** Why an argument is skipped. */
  datatype Skip = PathMissing | NoOrigin | NotARepo

  /** What the argument loop makes of an argument: a reason to skip it, or the
      canonical URL and the source to clone from. */
  datatype Resolution = Skipped(why: Skip) | Resolved(url: string, source: string)

  /** Resolution of one argument. `origin` is get_origin_url: the stripped
      output of `git remote get-url origin`, or None when that fails; an
      empty answer is treated like a missing one. */
  function Resolve(fs: FileSystem, origin: string -> Option<string>, arg: string): (r: Resolution)
    ensures r == Skipped(PathMissing) <==> Classify(fs, arg) == NoSuchPath
    ensures r == Skipped(NotARepo) <==> Classify(fs, arg) == PlainDir
    ensures r == Skipped(NoOrigin) <==> Classify(fs, arg) == LocalRepo && (origin(arg) == None || origin(arg) == Some(""))
    ensures r.Resolved? && Classify(fs, arg) == LocalRepo ==> origin(arg) == Some(r.url) && r.url != "" && r.source == arg
    ensures Classify(fs, arg) == OtherPath ==> r == Resolved(arg, arg)
  {
    match Classify(fs, arg)
    case NoSuchPath => Skipped(PathMissing)
    case LocalRepo =>
      (match origin(arg)
       case Some(url) => if url != "" then Resolved(url, arg) else Skipped(NoOrigin)
       case None => Skipped(NoOrigin))
    case PlainDir => Skipped(NotARepo)
    case OtherPath => Resolved(arg, arg)
  }

  /** A mirror `<cacheDir>/<name>`. */
  datatype MirrorDir = MirrorDir(cacheDir: string, name: string)

  /** The git commands the populator issues. */
  datatype GitCmd =
    | GetOriginUrl(repo: string)                    // git -C repo remote get-url origin
    | Fetch(mirror: MirrorDir)                      // git -C mirror fetch --all
    | SetOriginUrl(mirror: MirrorDir, url: string)  // git -C mirror remote set-url origin url
    | CloneMirror(source: string, mirror: MirrorDir) // git clone --mirror source mirror

  /** The mirror for a canonical URL: the SHA-256 hex digest of the URL (here
      the parameter `hash`) is the directory name under the cache root. */
  function MirrorFor(cacheDir: string, hash: string -> string, url: string): MirrorDir
  {
    MirrorDir(cacheDir, hash(url))
  }

  /** The outcome of populate_cache: the commands issued, the value returned,
      whether the mirror exists afterwards, and the index file afterwards. */
  datatype CacheStep = CacheStep(trace: seq<GitCmd>, ok: bool, mirrorExists: bool, index: IndexFile)

  /** populate_cache. An existing mirror is fetched, its origin is reset and
      the index is updated, whatever the fetch did; the result is the fetch's.
      An absent mirror is cloned; only a successful clone is followed by the
      origin reset and the index update. The result of the origin reset is
      never looked at. A failed clone is taken to leave no mirror behind. */
  function PopulateCache(url: string, mirror: MirrorDir, source: string, mirrorExists: bool,
                         index: IndexFile, gitOk: GitCmd -> bool, writeOk: bool): (r: CacheStep)
    ensures mirrorExists ==>
      && r.trace == [Fetch(mirror), SetOriginUrl(mirror, url)]
      && r.ok == gitOk(Fetch(mirror))
      && r.mirrorExists
    ensures !mirrorExists ==>
      && |r.trace| > 0 && r.trace[0] == CloneMirror(source, mirror)
      && r.ok == gitOk(CloneMirror(source, mirror))
      && r.mirrorExists == r.ok
      && r.trace == if r.ok then [CloneMirror(source, mirror), SetOriginUrl(mirror, url)]
                    else [CloneMirror(source, mirror)]
    ensures r.mirrorExists ==> r.index == UpdateIndex(index, url, mirror.name, writeOk).file
    ensures !r.mirrorExists ==> r.index == index
    ensures r.mirrorExists && writeOk ==> Records(r.index, url, mirror.name)
  {
    var setUrl := SetOriginUrl(mirror, url);
    if mirrorExists then
      var updated := gitOk(Fetch(mirror));
      CacheStep([Fetch(mirror), setUrl], updated, true, UpdateIndex(index, url, mirror.name, writeOk).file)
    else
      var clone := CloneMirror(source, mirror);
      if gitOk(clone) then
        CacheStep([clone, setUrl], true, true, UpdateIndex(index, url, mirror.name, writeOk).file)
      else
        CacheStep([clone], false, false, index)
  }

  /** The outcome of `git remote set-url` never influences populate_cache. */
  lemma SetOriginUrlResultIgnored(url: string, mirror: MirrorDir, source: string, mirrorExists: bool,
                                  index: IndexFile, gitOk1: GitCmd -> bool, gitOk2: GitCmd -> bool, writeOk: bool)
    requires forall c: GitCmd | !c.SetOriginUrl? :: gitOk1(c) == gitOk2(c)
    ensures PopulateCache(url, mirror, source, mirrorExists, index, gitOk1, writeOk)
         == PopulateCache(url, mirror, source, mirrorExists, index, gitOk2, writeOk)
  {
  }

  /** Create, then update: after a successful clone, populating the same URL
      again fetches instead of cloning, and once the first index write went
      through the second run leaves the index exactly as it was. */
  lemma CreateThenUpdate(url: string, mirror: MirrorDir, source: string, index: IndexFile,
                         gitOk1: GitCmd -> bool, gitOk2: GitCmd -> bool, writeOk1: bool, writeOk2: bool)
    requires PopulateCache(url, mirror, source, false, index, gitOk1, writeOk1).ok
    ensures var r1 := PopulateCache(url, mirror, source, false, index, gitOk1, writeOk1);
            var r2 := PopulateCache(url, mirror, source, r1.mirrorExists, r1.index, gitOk2, writeOk2);
            && r1.trace[0] == CloneMirror(source, mirror)
            && r2.trace == [Fetch(mirror), SetOriginUrl(mirror, url)]
            && (writeOk1 ==> r2.index == r1.index && Records(r2.index, url, mirror.name))
  {
  }

  /** The inputs the argument loop consults: the cache root, the filesystem,
      get_origin_url, the SHA-256 digest, and the outcomes of git commands and
      index writes made while processing the argument at a given position. */
  datatype Env = Env(
    cacheDir: string,
    fs: FileSystem,
    origin: string -> Option<string>,
    hash: string -> string,
    gitOk: nat -> GitCmd -> bool,
    writeOk: nat -> bool)

  /** The persistent state the loop changes: the names of the mirrors present
      under the cache root, and the index file. */
  datatype Store = Store(mirrors: set<string>, index: IndexFile)

  /** What happened to one argument. */
  datatype ArgOutcome = NotCached(why: Skip) | Cached(url: string, ok: bool)

  datatype ArgStep = ArgStep(outcome: ArgOutcome, trace: seq<GitCmd>, store: Store)

  /** An argument's outcome is decided by its own resolution, never by what
      happened to the arguments before it. */
  ghost predicate OutcomeMatches(env: Env, arg: string, o: ArgOutcome)
  {
    match Resolve(env.fs, env.origin, arg)
    case Skipped(why) => o == NotCached(why)
    case Resolved(url, _) => o.Cached? && o.url == url
  }

  /** The git command issued before an argument resolves: the origin
      lookup, made for a working copy only. */
  function Lookup(fs: FileSystem, arg: string): seq<GitCmd>
  {
    if Classify(fs, arg) == LocalRepo then [GetOriginUrl(arg)] else []
  }

  /** One iteration of the argument loop in main, for the argument at
      position `i`. */
  function ProcessArg(env: Env, i: nat, arg: string, st: Store): (r: ArgStep)
    ensures OutcomeMatches(env, arg, r.outcome)
    ensures r.outcome.NotCached? ==> r.store == st
    ensures r.outcome == NotCached(PathMissing) || r.outcome == NotCached(NotARepo) ==> r.trace == []
    ensures r.outcome == NotCached(NoOrigin) ==> r.trace == [GetOriginUrl(arg)]
    ensures r.outcome.Cached? ==>
      var key := env.hash(r.outcome.url);
      var m := MirrorDir(env.cacheDir, key);
      && |r.trace| > 0
      && r.trace[|r.trace| - 1] == (if key in st.mirrors || r.outcome.ok then SetOriginUrl(m, r.outcome.url)
                                    else CloneMirror(Resolve(env.fs, env.origin, arg).source, m))
      && st.mirrors <= r.store.mirrors <= st.mirrors + {key}
      && (r.outcome.ok ==> key in r.store.mirrors)
      && (key in r.store.mirrors && env.writeOk(i) ==> Records(r.store.index, r.outcome.url, key))
  {
    var lookup := Lookup(env.fs, arg);
    match Resolve(env.fs, env.origin, arg)
    case Skipped(why) => ArgStep(NotCached(why), lookup, st)
    case Resolved(url, source) =>
      var mirror := MirrorFor(env.cacheDir, env.hash, url);
      var c := PopulateCache(url, mirror, source, mirror.name in st.mirrors, st.index,
                             env.gitOk(i), env.writeOk(i));
      var mirrors := if c.mirrorExists then st.mirrors + {mirror.name} else st.mirrors;
      ArgStep(Cached(url, c.ok), lookup + c.trace, Store(mirrors, c.index))
  }

  /** The argument loop so far: one outcome per argument, all commands issued,
      and the state reached. */
  datatype Progress = Progress(outcomes: seq<ArgOutcome>, trace: seq<GitCmd>, store: Store)

  /** The argument loop from position `i` on. The value populate_cache returns
      is dropped, so a failure never stops the arguments after it. */
  function ProcessArgs(env: Env, args: seq<string>, i: nat, st: Store): (p: Progress)
    ensures |p.outcomes| == |args|
    ensures forall k {:trigger p.outcomes[k]} | 0 <= k < |args| :: OutcomeMatches(env, args[k], p.outcomes[k])
    ensures (forall k | 0 <= k < |args| :: p.outcomes[k].NotCached?) ==> p.store == st
    ensures st.mirrors <= p.store.mirrors
    decreases |args|
  {
    if args == [] then Progress([], [], st)
    else
      var step := ProcessArg(env, i, args[0], st);
      var rest := ProcessArgs(env, args[1..], i + 1, step.store);
      var p := Progress([step.outcome] + rest.outcomes, step.trace + rest.trace, rest.store);
      assert p.outcomes[0] == step.outcome;
      assert forall k | 0 <= k < |rest.outcomes| :: rest.outcomes[k] == p.outcomes[k + 1];
      p
  }

  /** The first argument's outcome is the one it gets against `st`. */
  lemma FirstOutcome(env: Env, args: seq<string>, i: nat, st: Store)
    requires args != []
    ensures ProcessArgs(env, args, i, st).outcomes[0] == ProcessArg(env, i, args[0], st).outcome
  {
  }

  /** The outcome of argument `m > 0` is the rest of the loop's outcome
      for it, where the rest runs against the store the first argument
      left. */
  lemma OutcomeShift(env: Env, args: seq<string>, i: nat, st: Store, m: nat)
    requires 0 < m < |args|
    ensures ProcessArgs(env, args, i, st).outcomes[m]
         == ProcessArgs(env, args[1..], i + 1, ProcessArg(env, i, args[0], st).store).outcomes[m - 1]
  {
  }

  /** The command that reaches an argument's mirror: a fetch when the mirror
      was already present, a clone from the argument's source otherwise. */
  lemma ArgTouchesMirror(env: Env, i: nat, arg: string, st: Store, url: string, source: string)
    requires Resolve(env.fs, env.origin, arg) == Resolved(url, source)
    ensures var m := MirrorDir(env.cacheDir, env.hash(url));
            if env.hash(url) in st.mirrors then Fetch(m) in ProcessArg(env, i, arg, st).trace
            else CloneMirror(source, m) in ProcessArg(env, i, arg, st).trace
    ensures var m := MirrorDir(env.cacheDir, env.hash(url));
            env.hash(url) in st.mirrors ==>
              ProcessArg(env, i, arg, st).trace == Lookup(env.fs, arg) + [Fetch(m), SetOriginUrl(m, url)]
  {
  }

  /** A failed populate never stops the loop: for every argument that
      resolves to a URL, git is asked to fetch into, or clone into, that URL's
      mirror `<cacheDir>/<hash(url)>`, whatever the arguments before it did. */
  lemma {:induction false} EveryResolvedArgumentPopulated(env: Env, args: seq<string>, i: nat, st: Store, k: nat, url: string, source: string)
    requires k < |args| && Resolve(env.fs, env.origin, args[k]) == Resolved(url, source)
    ensures Fetch(MirrorDir(env.cacheDir, env.hash(url))) in ProcessArgs(env, args, i, st).trace
         || CloneMirror(source, MirrorDir(env.cacheDir, env.hash(url))) in ProcessArgs(env, args, i, st).trace
    decreases k
  {
    var step := ProcessArg(env, i, args[0], st);
    if k == 0 {
      ArgTouchesMirror(env, i, args[0], st, url, source);
    } else {
      EveryResolvedArgumentPopulated(env, args[1..], i + 1, step.store, k - 1, url, source);
    }
  }

  /** A successful populate is never undone by the arguments after it: the
      mirror of every argument whose populate returned true is among the
      mirrors when the loop ends. */
  lemma {:induction false} SuccessfulMirrorKept(env: Env, args: seq<string>, i: nat, st: Store, k: nat)
    requires k < |args|
    requires ProcessArgs(env, args, i, st).outcomes[k].Cached?
    requires ProcessArgs(env, args, i, st).outcomes[k].ok
    ensures env.hash(ProcessArgs(env, args, i, st).outcomes[k].url) in ProcessArgs(env, args, i, st).store.mirrors
    decreases k
  {
    var step := ProcessArg(env, i, args[0], st);
    if k > 0 {
      SuccessfulMirrorKept(env, args[1..], i + 1, step.store, k - 1);
    }
  }

  /** An index entry `u -> hash(u)` survives one more argument: the update
      for another URL keeps it, the update for `u` itself writes the same
      key, and a failed write leaves the file as it was. */
  lemma RecordsPersistStep(env: Env, i: nat, arg: string, st: Store, u: string)
    requires Records(st.index, u, env.hash(u))
    ensures Records(ProcessArg(env, i, arg, st).store.index, u, env.hash(u))
  {
  }

  /** An argument whose populate returned true for `u`, with its index
      write going through, leaves the entry `u -> hash(u)`. */
  lemma PopulatedRecorded(env: Env, i: nat, arg: string, st: Store, u: string)
    requires ProcessArg(env, i, arg, st).outcome == Cached(u, true) && env.writeOk(i)
    ensures Records(ProcessArg(env, i, arg, st).store.index, u, env.hash(u))
  {
  }

  /** An index entry `u -> hash(u)` survives the rest of the loop. */
  lemma {:induction false} RecordsPersist(env: Env, args: seq<string>, i: nat, st: Store, u: string)
    requires Records(st.index, u, env.hash(u))
    ensures Records(ProcessArgs(env, args, i, st).store.index, u, env.hash(u))
    decreases |args|
  {
    if args != [] {
      var step := ProcessArg(env, i, args[0], st);
      RecordsPersistStep(env, i, args[0], st, u);
      RecordsPersist(env, args[1..], i + 1, step.store, u);
    }
  }

  /** The index at the end of the loop records every URL whose populate
      returned true and whose index write went through. Argument `k` of
      the list starting at position `i` is argument `n` of the run. */
  lemma {:induction false} IndexRecordsPopulated(env: Env, args: seq<string>, i: nat, st: Store, k: nat, u: string, n: nat)
    requires k < |args| && ProcessArgs(env, args, i, st).outcomes[k] == Cached(u, true)
    requires n == i + k && env.writeOk(n)
    ensures Records(ProcessArgs(env, args, i, st).store.index, u, env.hash(u))
    decreases k
  {
    var step := ProcessArg(env, i, args[0], st);
    if k == 0 {
      FirstOutcome(env, args, i, st);
      PopulatedRecorded(env, i, args[0], st, u);
      RecordsPersist(env, args[1..], i + 1, step.store, u);
    } else {
      OutcomeShift(env, args, i, st, k);
      IndexRecordsPopulated(env, args[1..], i + 1, step.store, k - 1, u, n);
    }
  }

  /** The store the loop reaches argument `k` with: the one the first `k`
      arguments left behind them. */
  ghost function StoreBefore(env: Env, args: seq<string>, i: nat, st: Store, k: nat): Store
    requires k <= |args|
    decreases k
  {
    if k == 0 then st else StoreBefore(env, args[1..], i + 1, ProcessArg(env, i, args[0], st).store, k - 1)
  }

  /** Past the first argument, the rest of the loop reaches argument `k`
      with the store the first argument left. */
  lemma StoreBeforeCons(env: Env, args: seq<string>, i: nat, st: Store, k: nat)
    requires 0 < k <= |args|
    ensures StoreBefore(env, args, i, st, k) == StoreBefore(env, args[1..], i + 1, ProcessArg(env, i, args[0], st).store, k - 1)
  {
  }

  /** Mirrors only accumulate as the loop goes on. */
  lemma {:induction false} StoreBeforeGrows(env: Env, args: seq<string>, i: nat, st: Store, k: nat)
    requires k <= |args|
    ensures st.mirrors <= StoreBefore(env, args, i, st, k).mirrors
    decreases k
  {
    if k > 0 {
      StoreBeforeGrows(env, args[1..], i + 1, ProcessArg(env, i, args[0], st).store, k - 1);
    }
  }

  /** The first argument's successful populate leaves its mirror for every
      argument after it. */
  lemma MirrorKeptFirst(env: Env, args: seq<string>, i: nat, st: Store, k: nat, u: string)
    requires 0 < k <= |args| && ProcessArg(env, i, args[0], st).outcome == Cached(u, true)
    ensures env.hash(u) in StoreBefore(env, args, i, st, k).mirrors
  {
    var step := ProcessArg(env, i, args[0], st);
    assert env.hash(u) in step.store.mirrors;
    StoreBeforeGrows(env, args[1..], i + 1, step.store, k - 1);
  }

  /** Arguments run in order against the state the earlier ones left: the
      outcome of argument `j` (`arg`, at position `n` of the run) is the one
      it gets against the store `s` the first `j` arguments left. */
  lemma ArgumentSeesEarlierStore(env: Env, args: seq<string>, i: nat, st: Store, j: nat, n: nat, arg: string, s: Store)
    requires j < |args| && n == i + j && args[j] == arg && s == StoreBefore(env, args, i, st, j)
    ensures ProcessArgs(env, args, i, st).outcomes[j] == ProcessArg(env, n, arg, s).outcome
  {
    OutcomesAreSteps(env, args, i, st);
    StepsOutcomeAt(Step(env), args, i, st, j);
    StepAtIsArg(env, args, i, st, j, n, arg, s);
  }

  /** Once an argument's populate has returned true, its mirror is there
      for every argument after it. */
  lemma {:induction false} MirrorKeptUntil(env: Env, args: seq<string>, i: nat, st: Store, j: nat, k: nat, u: string, n: nat)
    requires j < k <= |args| && n == i + j
    requires ProcessArg(env, n, args[j], StoreBefore(env, args, i, st, j)).outcome == Cached(u, true)
    ensures env.hash(u) in StoreBefore(env, args, i, st, k).mirrors
    decreases j
  {
    if j == 0 {
      MirrorKeptFirst(env, args, i, st, k, u);
    } else {
      var step := ProcessArg(env, i, args[0], st);
      StoreBeforeCons(env, args, i, st, j);
      StoreBeforeCons(env, args, i, st, k);
      assert args[1..][j - 1] == args[j];
      MirrorKeptUntil(env, args[1..], i + 1, step.store, j - 1, k - 1, u, n);
    }
  }

  /** The commands the first `k` arguments issue, in order. */
  ghost function TraceBefore(env: Env, args: seq<string>, i: nat, st: Store, k: nat): seq<GitCmd>
    requires k <= |args|
    decreases k
  {
    if k == 0 then []
    else
      var step := ProcessArg(env, i, args[0], st);
      step.trace + TraceBefore(env, args[1..], i + 1, step.store, k - 1)
  }

  /** Concatenating commands is associative. */
  lemma AppendAssoc(a: seq<GitCmd>, b: seq<GitCmd>, c: seq<GitCmd>)
    ensures a + (b + c) == a + b + c
  {
  }

  /** The loop's commands are the first argument's followed by the rest's. */
  lemma TraceCons(env: Env, args: seq<string>, i: nat, st: Store)
    requires args != []
    ensures ProcessArgs(env, args, i, st).trace
         == ProcessArg(env, i, args[0], st).trace + ProcessArgs(env, args[1..], i + 1, ProcessArg(env, i, args[0], st).store).trace
  {
  }

  /** The commands before argument `k > 0` are the first argument's followed
      by those the rest issues before it. */
  lemma TraceBeforeCons(env: Env, args: seq<string>, i: nat, st: Store, k: nat)
    requires 0 < k <= |args|
    ensures TraceBefore(env, args, i, st, k)
         == ProcessArg(env, i, args[0], st).trace + TraceBefore(env, args[1..], i + 1, ProcessArg(env, i, args[0], st).store, k - 1)
  {
  }

  /** One argument's iteration, as a value. */
  ghost function Step(env: Env): (nat, string, Store) -> ArgStep
  {
    (n: nat, arg: string, s: Store) => ProcessArg(env, n, arg, s)
  }

  /** The commands a loop issues when every argument goes through `step`. */
  ghost function StepsTrace(step: (nat, string, Store) -> ArgStep, args: seq<string>, i: nat, st: Store): seq<GitCmd>
    decreases |args|
  {
    if args == [] then []
    else step(i, args[0], st).trace + StepsTrace(step, args[1..], i + 1, step(i, args[0], st).store)
  }

  /** The commands the first `k` arguments issue through `step`. */
  ghost function StepsTraceBefore(step: (nat, string, Store) -> ArgStep, args: seq<string>, i: nat, st: Store, k: nat): seq<GitCmd>
    requires k <= |args|
    decreases k
  {
    if k == 0 then []
    else step(i, args[0], st).trace + StepsTraceBefore(step, args[1..], i + 1, step(i, args[0], st).store, k - 1)
  }

  /** The store the first `k` arguments leave through `step`. */
  ghost function StepsStoreBefore(step: (nat, string, Store) -> ArgStep, args: seq<string>, i: nat, st: Store, k: nat): Store
    requires k <= |args|
    decreases k
  {
    if k == 0 then st else StepsStoreBefore(step, args[1..], i + 1, step(i, args[0], st).store, k - 1)
  }

  /** Whatever one iteration does, a loop's commands split at argument `k`
      into those of the first `k` arguments and those of the rest, run from
      the store the first `k` left. */
  lemma {:induction false} StepsTraceSplit(step: (nat, string, Store) -> ArgStep, args: seq<string>, i: nat, st: Store, k: nat)
    requires k <= |args|
    ensures StepsTrace(step, args, i, st)
         == StepsTraceBefore(step, args, i, st, k) + StepsTrace(step, args[k..], i + k, StepsStoreBefore(step, args, i, st, k))
    decreases k
  {
    if k > 0 {
      var first := step(i, args[0], st);
      StepsTraceSplit(step, args[1..], i + 1, first.store, k - 1);
      assert args[1..][k - 1..] == args[k..];
    }
  }

  /** The loop's commands are those of its iterations chained. */
  lemma {:induction false} TraceIsSteps(env: Env, args: seq<string>, i: nat, st: Store)
    ensures ProcessArgs(env, args, i, st).trace == StepsTrace(Step(env), args, i, st)
    decreases |args|
  {
    if args != [] {
      var first := ProcessArg(env, i, args[0], st);
      assert Step(env)(i, args[0], st) == first;
      TraceCons(env, args, i, st);
      TraceIsSteps(env, args[1..], i + 1, first.store);
    }
  }

  /** The commands before argument `k` are those of its iterations chained. */
  lemma {:induction false} TraceBeforeIsSteps(env: Env, args: seq<string>, i: nat, st: Store, k: nat)
    requires k <= |args|
    ensures TraceBefore(env, args, i, st, k) == StepsTraceBefore(Step(env), args, i, st, k)
    decreases k
  {
    if k > 0 {
      var first := ProcessArg(env, i, args[0], st);
      assert Step(env)(i, args[0], st) == first;
      TraceBeforeIsSteps(env, args[1..], i + 1, first.store, k - 1);
    }
  }

  /** The store before argument `k` is the one its iterations chain to. */
  lemma {:induction false} StoreBeforeIsSteps(env: Env, args: seq<string>, i: nat, st: Store, k: nat)
    requires k <= |args|
    ensures StoreBefore(env, args, i, st, k) == StepsStoreBefore(Step(env), args, i, st, k)
    decreases k
  {
    if k > 0 {
      var first := ProcessArg(env, i, args[0], st);
      assert Step(env)(i, args[0], st) == first;
      StoreBeforeIsSteps(env, args[1..], i + 1, first.store, k - 1);
    }
  }

  /** The outcomes of a loop whose every argument goes through `step`. */
  ghost function StepsOutcomes(step: (nat, string, Store) -> ArgStep, args: seq<string>, i: nat, st: Store): (os: seq<ArgOutcome>)
    ensures |os| == |args|
    decreases |args|
  {
    if args == [] then []
    else [step(i, args[0], st).outcome] + StepsOutcomes(step, args[1..], i + 1, step(i, args[0], st).store)
  }

  /** Whatever one iteration does, argument `j` gets the outcome of its
      iteration against the store the first `j` arguments left. */
  lemma {:induction false} StepsOutcomeAt(step: (nat, string, Store) -> ArgStep, args: seq<string>, i: nat, st: Store, j: nat)
    requires j < |args|
    ensures StepsOutcomes(step, args, i, st)[j] == step(i + j, args[j], StepsStoreBefore(step, args, i, st, j)).outcome
    decreases j
  {
    if j > 0 {
      var first := step(i, args[0], st);
      StepsOutcomeAt(step, args[1..], i + 1, first.store, j - 1);
      assert args[1..][j - 1] == args[j];
    }
  }

  /** The loop's outcomes are those of its iterations chained. */
  lemma {:induction false} OutcomesAreSteps(env: Env, args: seq<string>, i: nat, st: Store)
    ensures ProcessArgs(env, args, i, st).outcomes == StepsOutcomes(Step(env), args, i, st)
    decreases |args|
  {
    if args != [] {
      var first := ProcessArg(env, i, args[0], st);
      assert Step(env)(i, args[0], st) == first;
      OutcomesAreSteps(env, args[1..], i + 1, first.store);
    }
  }

  /** The iteration at argument `j` of the chain is `ProcessArg` on that
      argument, at its position `n` of the run, against the store `s` the
      first `j` arguments left. */
  lemma StepAtIsArg(env: Env, args: seq<string>, i: nat, st: Store, j: nat, n: nat, arg: string, s: Store)
    requires j < |args| && n == i + j && args[j] == arg && s == StoreBefore(env, args, i, st, j)
    ensures Step(env)(i + j, args[j], StepsStoreBefore(Step(env), args, i, st, j)) == ProcessArg(env, n, arg, s)
  {
    StoreBeforeIsSteps(env, args, i, st, j);
  }

  /** The store `s` the first `k` arguments leave is the one their
      iterations chain to. */
  lemma StoreAtIsSteps(env: Env, args: seq<string>, i: nat, st: Store, k: nat, s: Store)
    requires k <= |args| && s == StoreBefore(env, args, i, st, k)
    ensures s == StepsStoreBefore(Step(env), args, i, st, k)
  {
    StoreBeforeIsSteps(env, args, i, st, k);
  }

  /** The rest of the loop, from the store the first `k` arguments left,
      issues the commands its iterations chain to. */
  lemma RestIsSteps(env: Env, args: seq<string>, i: nat, st: Store, k: nat, n: nat, rest: seq<string>, s: Store)
    requires k <= |args| && n == i + k && rest == args[k..] && s == StoreBefore(env, args, i, st, k)
    ensures ProcessArgs(env, rest, n, s).trace
         == StepsTrace(Step(env), args[k..], i + k, StepsStoreBefore(Step(env), args, i, st, k))
  {
    StoreAtIsSteps(env, args, i, st, k, s);
    TraceIsSteps(env, rest, n, s);
  }

  /** The loop's commands split at any argument `k` (position `n` of the
      run): those of the first `k` arguments, then those of the loop over the
      remaining arguments `rest`, started from the store `s` the first `k`
      left. */
  lemma TraceSplit(env: Env, args: seq<string>, i: nat, st: Store, k: nat, n: nat, rest: seq<string>, s: Store)
    requires k <= |args| && n == i + k && rest == args[k..] && s == StoreBefore(env, args, i, st, k)
    ensures ProcessArgs(env, args, i, st).trace == TraceBefore(env, args, i, st, k) + ProcessArgs(env, rest, n, s).trace
  {
    TraceIsSteps(env, args, i, st);
    TraceBeforeIsSteps(env, args, i, st, k);
    StepsTraceSplit(Step(env), args, i, st, k);
    RestIsSteps(env, args, i, st, k, n, rest, s);
  }

  /** The loop over `rest`, which starts with `arg`, issues `arg`'s commands
      and then those of the loop over `later`, the arguments after it. */
  lemma RestTraceCons(env: Env, rest: seq<string>, n: nat, arg: string, later: seq<string>, s: Store)
    requires rest != [] && rest[0] == arg && later == rest[1..]
    ensures ProcessArgs(env, rest, n, s).trace
         == ProcessArg(env, n, arg, s).trace + ProcessArgs(env, later, n + 1, ProcessArg(env, n, arg, s).store).trace
  {
    TraceCons(env, rest, n, s);
  }

  /** The loop's commands around argument `k` (`arg`, at position `n`): the
      earlier arguments' commands, then `arg`'s own, issued against the store
      `s` the earlier ones left, then the later arguments' commands. */
  lemma ArgumentTraceAt(env: Env, args: seq<string>, i: nat, st: Store, k: nat, n: nat, arg: string, s: Store)
    requires k < |args| && n == i + k && args[k] == arg && s == StoreBefore(env, args, i, st, k)
    ensures ProcessArgs(env, args, i, st).trace
         == TraceBefore(env, args, i, st, k) + ProcessArg(env, n, arg, s).trace
            + ProcessArgs(env, args[k + 1..], n + 1, ProcessArg(env, n, arg, s).store).trace
  {
    var rest := args[k..];
    assert rest[0] == arg && rest[1..] == args[k + 1..];
    TraceSplit(env, args, i, st, k, n, rest, s);
    RestTraceCons(env, rest, n, arg, args[k + 1..], s);
    AppendAssoc(TraceBefore(env, args, i, st, k), ProcessArg(env, n, arg, s).trace,
                ProcessArgs(env, args[k + 1..], n + 1, ProcessArg(env, n, arg, s).store).trace);
  }

  /** An argument whose mirror is present when the loop reaches it issues,
      after its origin lookup, exactly a fetch into that mirror and the
      origin reset: it is never cloned again. */
  lemma MirrorPresentFetched(env: Env, args: seq<string>, i: nat, st: Store, k: nat, n: nat, arg: string, u: string, source: string)
    requires k < |args| && n == i + k && args[k] == arg && Resolve(env.fs, env.origin, arg) == Resolved(u, source)
    requires env.hash(u) in StoreBefore(env, args, i, st, k).mirrors
    ensures var s := StoreBefore(env, args, i, st, k);
            var m := MirrorDir(env.cacheDir, env.hash(u));
            && ProcessArg(env, n, arg, s).trace == Lookup(env.fs, arg) + [Fetch(m), SetOriginUrl(m, u)]
            && ProcessArgs(env, args, i, st).trace
               == TraceBefore(env, args, i, st, k) + ProcessArg(env, n, arg, s).trace
                  + ProcessArgs(env, args[k + 1..], n + 1, ProcessArg(env, n, arg, s).store).trace
  {
    var s := StoreBefore(env, args, i, st, k);
    ArgTouchesMirror(env, n, arg, s, u, source);
    ArgumentTraceAt(env, args, i, st, k, n, arg, s);
  }

  /** Arguments run in order against the state the earlier ones left: once
      an argument's populate has returned true, a later argument with the
      same URL (at position `n` of the run) issues, after its origin lookup,
      exactly a fetch into the mirror that populate left and the origin
      reset, instead of cloning it again. */
  lemma LaterArgumentFetches(env: Env, args: seq<string>, i: nat, st: Store, j: nat, k: nat, n: nat, arg: string, u: string, source: string)
    requires j < k < |args| && ProcessArgs(env, args, i, st).outcomes[j] == Cached(u, true)
    requires n == i + k && args[k] == arg && Resolve(env.fs, env.origin, arg) == Resolved(u, source)
    ensures var s := StoreBefore(env, args, i, st, k);
            var m := MirrorDir(env.cacheDir, env.hash(u));
            && ProcessArg(env, n, arg, s).trace == Lookup(env.fs, arg) + [Fetch(m), SetOriginUrl(m, u)]
            && ProcessArgs(env, args, i, st).trace
               == TraceBefore(env, args, i, st, k) + ProcessArg(env, n, arg, s).trace
                  + ProcessArgs(env, args[k + 1..], n + 1, ProcessArg(env, n, arg, s).store).trace
    ensures Fetch(MirrorDir(env.cacheDir, env.hash(u))) in ProcessArgs(env, args, i, st).trace
  {
    var nj := i + j;
    ArgumentSeesEarlierStore(env, args, i, st, j, nj, args[j], StoreBefore(env, args, i, st, j));
    MirrorKeptUntil(env, args, i, st, j, k, u, nj);
    MirrorPresentFetched(env, args, i, st, k, n, arg, u, source);
  }

  /** The fatal conditions, checked in this order before any argument. */
  datatype Fatal = GitMissing | CacheDirFailed | NoArguments

  datatype PopulatorRun = Aborted(reason: Fatal) | Finished(progress: Progress)

  /** What main learns before the loop: find_real_git's inputs (the PATH
      lookup, path resolution and the wrapper's path), which paths are
      executable, and whether the cache root could be created and the log
      file opened there. */
  datatype Setup = Setup(
    which: Option<string>,
    resolve: string -> string,
    wrapper: string,
    executable: string -> bool,
    cacheDirReady: bool)

  /** The git binary main goes on with. */
  function RealGit(setup: Setup): Option<string>
  {
    FindRealGit(setup.which, setup.resolve, setup.wrapper)
  }

  /** find_real_git chose a binary and it is executable. */
  predicate GitUsable(setup: Setup)
  {
    RealGit(setup).Some? && setup.executable(RealGit(setup).value)
  }

  /** main, on the arguments after the program name. */
  function RunPopulator(setup: Setup, env: Env, args: seq<string>, st: Store): (r: PopulatorRun)
    ensures r == Aborted(GitMissing) <==>
      || setup.which == None || setup.which == Some("")
      || setup.resolve(setup.which.value) == setup.resolve(setup.wrapper)
      || !setup.executable(setup.which.value)
    ensures r == Aborted(CacheDirFailed) <==> GitUsable(setup) && !setup.cacheDirReady
    ensures r == Aborted(NoArguments) <==> GitUsable(setup) && setup.cacheDirReady && args == []
    ensures r.Finished? ==>
      && r.progress == ProcessArgs(env, args, 0, st)
      && |r.progress.outcomes| == |args|
      && (forall k | 0 <= k < |args| :: OutcomeMatches(env, args[k], r.progress.outcomes[k]))
      && st.mirrors <= r.progress.store.mirrors
  {
    if !GitUsable(setup) then Aborted(GitMissing)
    else if !setup.cacheDirReady then Aborted(CacheDirFailed)
    else if args == [] then Aborted(NoArguments)
    else Finished(ProcessArgs(env, args, 0, st))
  }

  /** The process exit status: 1 for a fatal condition (the failed creation
      of the cache root escapes as an exception, which also exits 1), else 0. */
  function ExitCode(r: PopulatorRun): int
  {
    if r.Aborted? then 1 else 0
  }

  /** The run exits 0 exactly when no fatal condition holds, however many
      arguments were skipped or failed to populate. */
  lemma ExitCodeIgnoresArgumentFailures(setup: Setup, env: Env, args: seq<string>, st: Store)
    ensures ExitCode(RunPopulator(setup, env, args, st)) == 0
        <==> GitUsable(setup) && setup.cacheDirReady && args != []
  {
  }

  /** A URL given on the command line that does not also name an existing
      file is reported missing: no git command runs and nothing changes. */
  lemma UrlArgumentNeedsExistingPath(env: Env, i: nat, arg: string, st: Store)
    requires !env.fs.pathExists(arg)
    ensures ProcessArg(env, i, arg, st) == ArgStep(NotCached(PathMissing), [], st)
  {
  }

  /** A working copy with no origin remote, or an empty one, is skipped after
      the lookup, and the arguments after it are still processed. */
  lemma MissingOriginSkipped(env: Env, arg: string, rest: seq<string>, i: nat, st: Store)
    requires Classify(env.fs, arg) == LocalRepo
    requires env.origin(arg) == None || env.origin(arg) == Some("")
    ensures var p := ProcessArgs(env, [arg] + rest, i, st);
            && p.outcomes[0] == NotCached(NoOrigin)
            && p.trace[..1] == [GetOriginUrl(arg)]
            && p == Progress([NotCached(NoOrigin)] + ProcessArgs(env, rest, i + 1, st).outcomes,
                             [GetOriginUrl(arg)] + ProcessArgs(env, rest, i + 1, st).trace,
                             ProcessArgs(env, rest, i + 1, st).store)
  {
  }

  /** A failed clone is skipped like an argument that never resolved: it
      issues the clone (after the origin lookup for a working copy), changes
      neither the mirrors nor the index, and the arguments after it run from
      the state before it. */
  lemma FailedCloneSkipped(env: Env, arg: string, rest: seq<string>, i: nat, st: Store, url: string, source: string)
    requires Resolve(env.fs, env.origin, arg) == Resolved(url, source)
    requires env.hash(url) !in st.mirrors
    requires !env.gitOk(i)(CloneMirror(source, MirrorDir(env.cacheDir, env.hash(url))))
    ensures var p := ProcessArgs(env, [arg] + rest, i, st);
            var later := ProcessArgs(env, rest, i + 1, st);
            var lookup := Lookup(env.fs, arg);
            && p.outcomes == [Cached(url, false)] + later.outcomes
            && p.trace == lookup + [CloneMirror(source, MirrorDir(env.cacheDir, env.hash(url)))] + later.trace
            && p.store == later.store
  {
  }

  /** The end-to-end scenario: a working copy whose origin is `url`, no
      mirror and no index yet. The populator looks up the origin, clones the
      working copy into `<cacheDir>/<hash(url)>`, points the mirror's origin
      at `url`, and writes an index holding exactly `url -> hash(url)`. */
  lemma FirstPopulateOfWorkingCopy(env: Env, i: nat, arg: string, url: string)
    requires Classify(env.fs, arg) == LocalRepo && env.origin(arg) == Some(url) && url != ""
    requires env.gitOk(i)(CloneMirror(arg, MirrorDir(env.cacheDir, env.hash(url))))
    requires env.writeOk(i)
    ensures var m := MirrorDir(env.cacheDir, env.hash(url));
            ProcessArg(env, i, arg, Store({}, Absent))
            == ArgStep(Cached(url, true),
                       [GetOriginUrl(arg), CloneMirror(arg, m), SetOriginUrl(m, url)],
                       Store({env.hash(url)}, Present(map[url := env.hash(url)])))
  {
  }

  /** Idempotence across runs: populating the same argument a second time
      (the filesystem and origin unchanged) fetches into the mirror the first
      run left, never clones again, and writes nothing to an index the first
      run already updated. */
  lemma RepeatedArgumentFetches(env: Env, i: nat, j: nat, arg: string, st: Store)
    requires ProcessArg(env, i, arg, st).outcome.Cached?
    requires env.hash(ProcessArg(env, i, arg, st).outcome.url) in ProcessArg(env, i, arg, st).store.mirrors
    requires env.writeOk(i)
    ensures var first := ProcessArg(env, i, arg, st);
            var second := ProcessArg(env, j, arg, first.store);
            var m := MirrorDir(env.cacheDir, env.hash(first.outcome.url));
            && second.outcome.Cached? && second.outcome.url == first.outcome.url
            && second.trace[|second.trace| - 2..] == [Fetch(m), SetOriginUrl(m, first.outcome.url)]
            && second.store == first.store
  {
  }

  /** The git outcomes as main wires them: run_git_command always hands
      Popen a Tee object for the command's output, because main always opens
      the log file, and Tee offers no file descriptor. Popen raises, and the
      exception is caught as a failed command, for every fetch, clone and
      origin reset alike. The origin lookup goes through check_output
      directly and is not affected. */
  function TeeWired(env: Env): Env
  {
    env.(gitOk := (n: nat) => (c: GitCmd) => false)
  }

  /** As wired, one argument never adds a mirror and its populate never
      returns true. */
  lemma TeeWiredStep(env: Env, i: nat, arg: string, st: Store)
    ensures var r := ProcessArg(TeeWired(env), i, arg, st);
            && r.store.mirrors == st.mirrors
            && !(r.outcome.Cached? && r.outcome.ok)
  {
  }

  /** As wired, the populator clones nothing: the mirrors after the loop are
      exactly those before it and no argument's populate returns true. Only
      the index entries of mirrors that were already there get rewritten. */
  lemma {:induction false} NothingClonedAsWritten(env: Env, args: seq<string>, i: nat, st: Store)
    ensures var p := ProcessArgs(TeeWired(env), args, i, st);
            && p.store.mirrors == st.mirrors
            && forall k | 0 <= k < |args| :: !(p.outcomes[k].Cached? && p.outcomes[k].ok)
    decreases |args|
  {
    if args != [] {
      var step := ProcessArg(TeeWired(env), i, args[0], st);
      TeeWiredStep(env, i, args[0], st);
      NothingClonedAsWritten(env, args[1..], i + 1, step.store);
      var p := ProcessArgs(TeeWired(env), args, i, st);
      FirstOutcome(TeeWired(env), args, i, st);
      forall k | 0 < k < |args|
        ensures !(p.outcomes[k].Cached? && p.outcomes[k].ok)
      {
        OutcomeShift(TeeWired(env), args, i, st, k);
      }
    }
  }

  /** The end-to-end scenario of FirstPopulateOfWorkingCopy as wired: the
      clone is issued and fails, populate returns false, and neither a
      mirror nor an index appears. */
  lemma FirstPopulateFailsAsWritten(env: Env, i: nat, arg: string, url: string)
    requires Classify(env.fs, arg) == LocalRepo && env.origin(arg) == Some(url) && url != ""
    ensures var m := MirrorDir(env.cacheDir, env.hash(url));
            ProcessArg(TeeWired(env), i, arg, Store({}, Absent))
            == ArgStep(Cached(url, false), [GetOriginUrl(arg), CloneMirror(arg, m)], Store({}, Absent))
  {
  }
}

=== FILE: walk.dfy ===
/** The discoverer's top-down directory walk (find_and_populate_git_clone_cache.py).

    The filesystem below the resolved root is a finite tree of directory
    entries. Only directories matter: os.walk's `dirs` list holds exactly the
    entries that are directories (a symbolic link to a directory included), so
    plain files are not part of the model. A reported repository is identified
    by its path relative to the root, a sequence of entry names; the root itself
    is the empty path.
 */
module DirectoryWalk {

  type Name = string
  type Path = seq<Name>

  /** The marker subdirectory of a working copy. */
  const GitDir: Name := ".git"
  /** The package-manager cache the walk never descends into. */
  const NodeModules: Name := "node_modules"

  /** A directory entry: its name, whether it is a symbolic link, whether
      listing it succeeds (os.walk silently skips a directory it cannot list),
      and its subdirectories in listing order. */
  datatype Dir = Dir(name: Name, isLink: bool, listable: bool, children: seq<Dir>)

  /** The names of a directory listing. */
  function Names(cs: seq<Dir>): set<Name>
  {
    if cs == [] then {} else {cs[0].name} + Names(cs[1..])
  }

  /** A directory's entry names are pairwise distinct, as on every filesystem. */
  predicate UniqueNames(cs: seq<Dir>)
  {
    cs == [] || (cs[0].name !in Names(cs[1..]) && UniqueNames(cs[1..]))
  }

  predicate WellFormed(d: Dir)
  {
    && UniqueNames(d.children)
    && forall i | 0 <= i < |d.children| :: WellFormed(d.children[i])
  }

  predicate AllWellFormed(cs: seq<Dir>)
  {
    forall i | 0 <= i < |cs| :: WellFormed(cs[i])
  }

  /** A child the walk removes from `dirs` before descending. */
  predicate Pruned(c: Dir)
  {
    c.name == GitDir || c.name == NodeModules || c.isLink
  }

  /** The filtered `dirs` list the walk descends into. */
  function Kept(cs: seq<Dir>): (r: seq<Dir>)
    ensures forall i | 0 <= i < |r| :: !Pruned(r[i]) && r[i] in cs
    ensures forall c | c in cs && !Pruned(c) :: c in r
    ensures GitDir !in Names(r) && NodeModules !in Names(r)
  {
    if cs == [] then []
    else if Pruned(cs[0]) then Kept(cs[1..])
    else [cs[0]] + Kept(cs[1..])
  }

  /** What one iteration of the walk loop appends for directory `d` at path
      `at`: the membership test before filtering, then the same test after
      filtering. The second test can never succeed, since the filter has just
      removed every child named `.git`. */
  function Visit(d: Dir, at: Path): (found: seq<Path>)
    ensures found == if GitDir in Names(d.children) then [at] else []
  {
    var first := if GitDir in Names(d.children) then [at] else [];
    var second := if GitDir in Names(Kept(d.children)) then [at] else [];
    first + second
  }

  /** The repositories reported for the subtree `d` found at path `at`, in
      the order the top-down walk reports them. */
  function WalkDir(d: Dir, at: Path): seq<Path>
    decreases d, 1
  {
    if !d.listable then [] else Visit(d, at) + WalkList(d.children, at)
  }

  /** The walk of each kept child in listing order. It applies the filter
      of `Kept` child by child, so that it recurses on the listing itself;
      WalkListOverKept shows the two agree. */
  function WalkList(cs: seq<Dir>, at: Path): seq<Path>
    decreases cs, 0
  {
    if cs == [] then []
    else (if Pruned(cs[0]) then [] else WalkDir(cs[0], at + [cs[0].name])) + WalkList(cs[1..], at)
  }

  /** Walking a listing is walking its filtered `dirs` list. */
  lemma {:induction false} WalkListOverKept(cs: seq<Dir>, at: Path)
    ensures WalkList(cs, at) == WalkList(Kept(cs), at)
  {
    if cs != [] {
      WalkListOverKept(cs[1..], at);
      if !Pruned(cs[0]) {
        assert ([cs[0]] + Kept(cs[1..]))[1..] == Kept(cs[1..]);
      }
    }
  }

  /** Independent description of the walk's output: `rel` names a listable
      directory reached from `d` through children that are neither symbolic
      links nor named `.git` or `node_modules`, each listable, and that
      directory has a `.git` subdirectory. The filters apply to children
      only, never to `d` itself. */
  ghost predicate Reported(d: Dir, rel: Path)
    decreases rel
  {
    && d.listable
    && if rel == [] then GitDir in Names(d.children)
       else exists c :: c in d.children && !Pruned(c) && c.name == rel[0] && Reported(c, rel[1..])
  }

  /** No path appears twice. */
  predicate NoDuplicates(ps: seq<Path>)
  {
    forall i, j | 0 <= i < j < |ps| :: ps[i] != ps[j]
  }

  /** A directory comes before every reported directory below it. */
  predicate PreOrder(ps: seq<Path>)
  {
    forall i, j | 0 <= i < |ps| && 0 <= j < |ps| && ps[i] < ps[j] :: i < j
  }

  lemma ExtendsBy(at: Path, n: Name, q: Path)
    requires at + [n] <= q
    ensures at < q && q[|at|] == n
  {
  }

  /** Every path reported below `at` extends `at`. */
  lemma {:induction false} WalkDirUnder(d: Dir, at: Path)
    ensures forall q | q in WalkDir(d, at) :: at <= q
    decreases d, 1
  {
    if d.listable {
      WalkListUnder(d.children, at);
    }
  }

  /** Every path reported for a listing strictly extends `at`, by the name of
      one of the listed entries. */
  lemma {:induction false} WalkListUnder(cs: seq<Dir>, at: Path)
    ensures forall q | q in WalkList(cs, at) :: at < q && q[|at|] in Names(cs)
    decreases cs, 0
  {
    if cs != [] {
      var n := cs[0].name;
      var head := if Pruned(cs[0]) then [] else WalkDir(cs[0], at + [n]);
      if !Pruned(cs[0]) {
        WalkDirUnder(cs[0], at + [n]);
      }
      WalkListUnder(cs[1..], at);
      forall q | q in WalkList(cs, at)
        ensures at < q && q[|at|] in Names(cs)
      {
        if q in head {
          assert at + [n] <= q;
          assert q[|at|] == (at + [n])[|at|] == n;
        }
      }
    }
  }

  /** A path is reported for a listing iff it is reported for one of the
      kept entries. */
  lemma {:induction false} WalkListMember(cs: seq<Dir>, at: Path, q: Path)
    ensures q in WalkList(cs, at) <==>
            exists c :: c in cs && !Pruned(c) && q in WalkDir(c, at + [c.name])
  {
    if cs != [] {
      WalkListMember(cs[1..], at, q);
      if exists c :: c in cs && !Pruned(c) && q in WalkDir(c, at + [c.name]) {
        var c :| c in cs && !Pruned(c) && q in WalkDir(c, at + [c.name]);
        if c != cs[0] {
          assert c in cs[1..];
        }
      }
    }
  }

  /** Walk completeness and soundness: the walk reports exactly the
      directories `Reported` describes. */
  lemma {:induction false} WalkDirExact(d: Dir, at: Path, rel: Path)
    ensures at + rel in WalkDir(d, at) <==> Reported(d, rel)
    decreases d
  {
    if d.listable {
      WalkListUnder(d.children, at);
      if rel == [] {
        assert at + rel == at;
      } else {
        assert at + rel !in Visit(d, at) by {
          assert |at + rel| > |at|;
        }
        forall c | c in d.children
          ensures at + rel in WalkDir(c, at + [c.name]) <==> c.name == rel[0] && Reported(c, rel[1..])
        {
          WalkDirUnder(c, at + [c.name]);
          if c.name == rel[0] {
            assert at + rel == (at + [c.name]) + rel[1..];
            WalkDirExact(c, at + [c.name], rel[1..]);
          } else {
            forall q | q in WalkDir(c, at + [c.name])
              ensures q[|at|] == c.name
            {
              ExtendsBy(at, c.name, q);
            }
            assert (at + rel)[|at|] == rel[0];
          }
        }
        WalkListMember(d.children, at, at + rel);
      }
    }
  }

  /** The discoverer's walk from the resolved root reports a path iff
      `Reported` holds of it. */
  lemma WalkReportsExactly(root: Dir, p: Path)
    ensures p in WalkDir(root, []) <==> Reported(root, p)
  {
    assert [] + p == p;
    WalkDirExact(root, [], p);
  }

  /** A reported directory is never reached through `.git` or `node_modules`. */
  lemma {:induction false} ReportedAvoidsPrunedNames(d: Dir, rel: Path)
    requires Reported(d, rel)
    ensures forall k | 0 <= k < |rel| :: rel[k] != GitDir && rel[k] != NodeModules
    decreases rel
  {
    if rel != [] {
      var c :| c in d.children && !Pruned(c) && c.name == rel[0] && Reported(c, rel[1..]);
      ReportedAvoidsPrunedNames(c, rel[1..]);
      forall k | 0 <= k < |rel|
        ensures rel[k] != GitDir && rel[k] != NodeModules
      {
        if k > 0 {
          assert rel[k] == rel[1..][k - 1];
        }
      }
    }
  }

  /** No reported path passes through a `.git` or `node_modules` directory. */
  lemma WalkAvoidsPrunedNames(root: Dir, p: Path)
    requires p in WalkDir(root, [])
    ensures forall k | 0 <= k < |p| :: p[k] != GitDir && p[k] != NodeModules
  {
    WalkReportsExactly(root, p);
    ReportedAvoidsPrunedNames(root, p);
  }

  /** `d` with the contents of every pruned descendant emptied: whatever lies
      inside a `.git`, `node_modules` or symlinked directory is dropped. */
  function Hollow(d: Dir): Dir
    decreases d, 1
  {
    d.(children := HollowList(d.children))
  }

  function HollowList(cs: seq<Dir>): seq<Dir>
    decreases cs, 0
  {
    if cs == [] then []
    else [if Pruned(cs[0]) then cs[0].(children := []) else Hollow(cs[0])] + HollowList(cs[1..])
  }

  lemma {:induction false} HollowListNames(cs: seq<Dir>)
    ensures Names(HollowList(cs)) == Names(cs)
  {
    if cs != [] {
      HollowListNames(cs[1..]);
      assert HollowList(cs)[1..] == HollowList(cs[1..]);
    }
  }

  /** Exclusion: nothing inside a pruned directory influences the walk, so a
      working copy under `node_modules`, under `.git` or behind a symbolic link
      is never reported. */
  lemma {:induction false} WalkIgnoresPruned(d: Dir, at: Path)
    ensures WalkDir(Hollow(d), at) == WalkDir(d, at)
    decreases d, 1
  {
    HollowListNames(d.children);
    WalkListIgnoresPruned(d.children, at);
  }

  lemma {:induction false} WalkListIgnoresPruned(cs: seq<Dir>, at: Path)
    ensures WalkList(HollowList(cs), at) == WalkList(cs, at)
    decreases cs, 0
  {
    if cs != [] {
      var h := HollowList(cs);
      assert h[1..] == HollowList(cs[1..]);
      WalkListIgnoresPruned(cs[1..], at);
      if !Pruned(cs[0]) {
        WalkIgnoresPruned(cs[0], at + [cs[0].name]);
      }
    }
  }

  lemma ConcatOrdered(a: seq<Path>, b: seq<Path>)
    requires NoDuplicates(a) && NoDuplicates(b) && PreOrder(a) && PreOrder(b)
    requires forall x, y | x in a && y in b :: x != y && !(y < x)
    ensures NoDuplicates(a + b) && PreOrder(a + b)
  {
    var s := a + b;
    forall i, j | 0 <= i < |s| && 0 <= j < |s|
      ensures s[i] < s[j] ==> i < j
      ensures i < j ==> s[i] != s[j]
    {
      if i < |a| && j < |a| {
        assert s[i] == a[i] && s[j] == a[j];
      } else if i < |a| {
        assert s[i] == a[i] && s[j] == b[j - |a|];
        assert a[i] in a && b[j - |a|] in b;
      } else if j < |a| {
        assert s[i] == b[i - |a|] && s[j] == a[j];
        assert a[j] in a && b[i - |a|] in b;
      } else {
        assert s[i] == b[i - |a|] && s[j] == b[j - |a|];
      }
    }
  }

  /** In a well-formed tree each directory is reported at most once, and
      before every reported directory below it. */
  lemma {:induction false} WalkDirOrdered(d: Dir, at: Path)
    requires WellFormed(d)
    ensures NoDuplicates(WalkDir(d, at)) && PreOrder(WalkDir(d, at))
    decreases d, 1
  {
    if d.listable {
      WalkListOrdered(d.children, at);
      WalkListUnder(d.children, at);
      ConcatOrdered(Visit(d, at), WalkList(d.children, at));
    }
  }

  lemma {:induction false} WalkListOrdered(cs: seq<Dir>, at: Path)
    requires UniqueNames(cs) && AllWellFormed(cs)
    ensures NoDuplicates(WalkList(cs, at)) && PreOrder(WalkList(cs, at))
    decreases cs, 0
  {
    if cs != [] {
      var n := cs[0].name;
      var head := if Pruned(cs[0]) then [] else WalkDir(cs[0], at + [n]);
      var tail := WalkList(cs[1..], at);
      assert WellFormed(cs[0]);
      assert AllWellFormed(cs[1..]) by {
        forall i | 0 <= i < |cs[1..]| ensures WellFormed(cs[1..][i]) {
          assert cs[1..][i] == cs[i + 1];
        }
      }
      if !Pruned(cs[0]) {
        WalkDirOrdered(cs[0], at + [n]);
        WalkDirUnder(cs[0], at + [n]);
      }
      WalkListOrdered(cs[1..], at);
      WalkListUnder(cs[1..], at);
      forall x, y | x in head && y in tail
        ensures x != y && !(y < x)
      {
        assert at + [n] <= x;
        assert x[|at|] == (at + [n])[|at|] == n;
        assert y[|at|] in Names(cs[1..]);
      }
      ConcatOrdered(head, tail);
    }
  }

  /** The discoverer's result: every repository once, parents first. */
  lemma WalkReportsOnceInPreOrder(root: Dir)
    requires WellFormed(root)
    ensures NoDuplicates(WalkDir(root, [])) && PreOrder(WalkDir(root, []))
  {
    WalkDirOrdered(root, []);
  }
}
